=== FILE: README.md ===
# shopware.py in Dafny

A verified model of the core of `shopware.py`, a small Python client for the
Shopware Admin API, which speaks JSON:API and authenticates with an OAuth2
client-credentials grant. The model covers three parts.

- **The JSON:API denormaliser.**
  - `group_api_included` indexes the sideloaded `included` resources by type, then by id.
  - `parse_single_entity` and `parse_relationships` resolve relationship references against that index, recursively. They produce nested flat entities.
  - `parse_api_response` flattens every primary `data` row. It updates each row's own `attributes` dictionary in place.
- **The chunker** `get_sync_chunks`. It splits a payload into consecutive slices.
- **The decision logic of `ApiClient`:**
  - method selection, URL building, header merge and status rejection;
  - the one-shot token refresh and retry on a 401, which updates the client's `bearer_token` field;
  - the `indexing-behavior` header that `sync_call` writes into the caller's header dictionary.

Files and modules:

- `wrappers.dfy` (`Wrappers`): `Option` and `Result`. A `Result` error stands for a raised exception.
- `json.dfy` (`Json`): decoded JSON values and `Dict`. A `Dict` is a Python dictionary object whose entries can be changed in place.
- `jsonapi.dfy` (`JsonApi`): the document shapes and the index of included resources, built by the `GroupIncluded` loop. `GroupIncluded` is proved equal to the fold `Grouped`.
- `resolve.dfy` (`Resolve`, `ResolveProperties`):
  - the mutually recursive resolver, as functions;
  - lemmas about how results merge, which errors arise, recursion depth and cycles.
- `denormalize.dfy` (`Denormalize`):
  - `ParseApiResponse` and its loop, as methods that update the rows' dictionaries;
  - the value-level definition `Denormalize` that they are proved against. This covers the state left behind when a row raises.
- `chunks.dfy` (`Chunks`): the chunker, with its round trip and its size properties.
- `client.dfy` (`Client`):
  - `ApiClient` as a class over a scripted `Transport`;
  - `CallSpec`, the pure definition of a whole call, which `ApiClient.Call` is proved against;
  - the retry lemmas.

Python exceptions are modelled as `Err` values, and the first exception raised wins:

- a failed dictionary lookup is `KeyError(key)`;
- a relationship `data` of unknown shape is `UnsupportedShape`;
- Python's recursion limit is `RecursionLimit`.

The resolver has no cycle guard, so the recursion is bounded by a `fuel` parameter that stands for the recursion limit. The model then proves three things:

- more fuel never changes an answer that did not hit the limit;
- on an acyclic index, enough fuel never hits it;
- an entity on a cycle never resolves.

In a few places the code does not do what a reader might expect, and the model follows the code:

- **A dangling reference is an error, not a stub.** The guard on line 120 suggests that a missing entity would give an id-only stub `{id}`. But it protects only the attribute merge: the lookup on line 124 of `shopware.py` is unguarded, so the call raises `KeyError`: of the type when the type is absent, otherwise of the id. See `Resolve.ResolveEntity`.
- **An empty to-many list contributes no key.** It is falsy, so it is skipped at line 134.
- **A 401 retry takes three requests.** The token fetch is a request on the same transport as the call and its retry, and `Client.ExpiredTokenScenario` shows all three.
- **Row dictionaries are updated in place.** `parse_api_response` writes into the rows' own attribute dictionaries. A row that raises keeps the `id` already written into it.

## Model

| member | source | states |
|---|---|---|
| JsonApi.GroupIncluded | shopware.py:104-113 | the loop builds exactly the index `Grouped(included)`: each element stored under its type and id, in array order |
| JsonApi.Grouped | shopware.py:104-113 | the index `group_api_included` builds, as a fold over `included` in array order; every resource in it sits under its own type and id |
| JsonApi.GroupedLookup | shopware.py:104-113 | a (type, id) is in the index iff some element has it, and the element stored is the last such one in array order |
| JsonApi.GroupedTypes | shopware.py:107-109 | a type has a bucket iff some element of `included` has that type |
| JsonApi.LastIndex | shopware.py:111 | the position of the last element with a given (type, id), or -1 when there is none |
| Resolve.ResolveEntity | shopware.py:116-127 | a resolved entity always has `id`; success needs a stored entity and recursion budget left; a dangling reference raises `KeyError` of the missing type, or of the id when the type exists |
| Resolve.ResolveList | shopware.py:143-149 | a resolved to-many list has exactly as many entries as references, each an entity carrying `id`, so `if parsed` never drops one |
| Resolve.ResolveMember | shopware.py:133-151 | absent `data` raises `KeyError("data")`; a relationship adds a value iff its `data` is truthy; the value is a nested entity for an object and a list for a list; any other truthy shape raises |
| Resolve.ResolveRelationships | shopware.py:130-153 | the keys of the result are exactly the names of the relationships with truthy `data`, each holding a value of its linkage's shape |
| ResolveProperties.ResolveListSpec | shopware.py:143-149 | a list resolves iff every reference does, element k being reference k's entity, in order and with duplicates; otherwise the error is that of the first failing reference |
| ResolveProperties.RelationshipsOkIffMembersOk | shopware.py:133-153 | `parse_relationships` succeeds iff every relationship resolves |
| ResolveProperties.RelationshipsValues | shopware.py:133-149 | on success, each truthy relationship's name maps to that relationship's resolved value |
| ResolveProperties.RelationshipsFirstError | shopware.py:133-153 | on failure, the error is that of the first relationship, in document order, that fails |
| ResolveProperties.EntityMerge | shopware.py:116-127 | a resolved entity is `{"id": id}`, overwritten by the stored attributes, then by the resolved relationships: keys are id ∪ attributes ∪ truthy names, later sources winning |
| ResolveProperties.EntityUnfold | shopware.py:120-125 | resolving a stored entity needs its `attributes`, then its `relationships`, which resolve with one less unit of budget |
| ResolveProperties.EntityFuelMonotone | shopware.py:116-127 | more recursion budget gives the same result unless the smaller budget hit the limit |
| ResolveProperties.ListFuelMonotone | shopware.py:143-149 | the same for a to-many list |
| ResolveProperties.MemberFuelMonotone | shopware.py:133-151 | the same for one relationship |
| ResolveProperties.RelationshipsFuelMonotone | shopware.py:130-153 | the same for a relationships dictionary |
| ResolveProperties.EntityWithinBudget | shopware.py:116-127 | on an index made acyclic by a rank, a budget above the reference's rank never hits the recursion limit |
| ResolveProperties.ListWithinBudget | shopware.py:143-149 | the same for a to-many list |
| ResolveProperties.MemberWithinBudget | shopware.py:133-151 | the same for one relationship |
| ResolveProperties.RelationshipsWithinBudget | shopware.py:130-153 | the same for a relationships dictionary |
| ResolveProperties.MemberValue | shopware.py:137-149 | a to-one value is the referenced entity's resolution; a to-many value holds one resolved entity per reference, in list order, duplicates included |
| ResolveProperties.MemberSucceeds | shopware.py:133-151 | a relationship with falsy `data` adds no key and never raises; a truthy to-one or to-many relationship resolves iff every reference it points at does, else it raises the first failing reference's exception; any other truthy shape raises |
| ResolveProperties.MemberTargetsResolve | shopware.py:137-149 | a relationship resolves only when every reference it points at resolves |
| ResolveProperties.RelationshipsFailWithTarget | shopware.py:133-153 | one failing reference anywhere makes `parse_relationships` fail |
| ResolveProperties.CycleNeverResolves | shopware.py:116-153 | with no cycle guard, an entity on a relationship cycle (a self-reference included) never resolves, whatever the budget |
| Denormalize.FlattenRow | shopware.py:160-166 | a row without `attributes`, or without `relationships`, raises `KeyError` of that key |
| Denormalize.FlattenRowResolves | shopware.py:160-163 | a row with both members flattens iff its relationships resolve, and otherwise raises their exception |
| Denormalize.FlattenRowShape | shopware.py:161-164 | a flat row's keys are id ∪ attributes ∪ truthy relationship names; its `id` is the row's top-level id even over an attribute `id`, unless a relationship is named `id`; other attributes keep their values; the row's relationships resolve and each truthy name holds its resolved value |
| Denormalize.FlattenRows | shopware.py:159-168 | on success there is one flat entity per row |
| Denormalize.Denormalize | shopware.py:156-168 | a missing `included` raises `KeyError("included")` before `data` is read; a missing `data` raises `KeyError("data")`; on success, one entity per row |
| Denormalize.FirstFailure | shopware.py:160-166 | the position of the first row that fails: every row before it flattens, it does not |
| Denormalize.EntriesAfter | shopware.py:156-168 | the rows' attribute entries once `parse_api_response` returns or raises: one per row, present exactly for rows that had a dictionary, each either holding an `id` or untouched |
| Denormalize.FlattenRowsAllOk | shopware.py:159-168 | when every row flattens, entity k is row k's flat entity, in row order |
| Denormalize.FlattenRowsFirstError | shopware.py:159-168 | when row n is the first to fail, the result is row n's exception |
| Denormalize.EmptyDocument | shopware.py:156-168 | a document with no rows denormalises to the empty list, whatever `included` holds |
| Denormalize.FlattenRowInPlace | shopware.py:160-166 | the row's dictionary receives the id, then the relationships, ending equal to the row's flat entity; a row that raises keeps the id written in |
| Denormalize.EntriesAfterStopped | shopware.py:159-168 | the entries after the loop stops at row n are those `EntriesAfter` describes |
| Denormalize.FlattenAll | shopware.py:159-168 | the loop returns the rows' own dictionaries, each equal to its flat entity, or the first row's exception; rows before it are flattened, it keeps its id, later rows are untouched |
| Denormalize.ParseApiResponse | shopware.py:156-168 | the result and every row's dictionary afterwards agree with `Denormalize` and `EntriesAfter` on the entries as they were before the call |
| Chunks.SyncChunks | shopware.py:171-173 | a zero size is refused (`range` raises); a negative size yields no chunks |
| Chunks.SlicesConcat | shopware.py:171-173 | the slices from a position concatenate to the rest of the data |
| Chunks.SlicesLengths | shopware.py:171-173 | every slice is non-empty and at most `size` long, and every slice but the last is exactly `size` long |
| Chunks.SlicesCount | shopware.py:171-173 | the number of slices is the least count whose full slices would cover what is left |
| Chunks.ChunksRoundTrip | shopware.py:171-173 | concatenating the chunks gives back the data exactly |
| Chunks.ChunksShape | shopware.py:171-173 | the chunks are well sized and there are ceil(len / size) of them |
| Chunks.ChunksOfThree | shopware.py:171-173 | ten elements in chunks of three are `[[1,2,3],[4,5,6],[7,8,9],[10]]` |
| Client.Transport.Request | shopware.py:66 | the transport answers with the next scripted reply (an exhausted script raises) and logs the request |
| Client.MethodFor | shopware.py:48-56 | POST iff form fields or a payload other than `None` is given, GET otherwise |
| Client.NullPayloadIsNone | shopware.py:49-56 | a JSON null payload is Python's `None`: the request is exactly the one with no payload, a GET without form fields |
| Client.UrlShape | shopware.py:61-64 | the URL ends with the endpoint; it is the endpoint itself iff its first four characters are "http", otherwise it starts with `base_url + "/api/"` |
| Client.UrlIdempotent | shopware.py:61-64 | when `base_url` starts with "http", a built URL is used verbatim when built again |
| Client.BuildRequest | shopware.py:47-66 | method and URL as above; form fields take precedence and suppress the payload; a null payload is not sent; headers are passed only when given |
| Client.Outcome | shopware.py:66-74 | a call fails iff the transport raises or the status is outside [200, 300); a transport exception propagates as itself, never as an HTTP status; a bad status carries status and body; otherwise it gives the decoded body, `None` when that is not JSON |
| Client.DefaultHeaders | shopware.py:22-26 | exactly `Authorization: Bearer <token>`, `Content-Type` and `Accept` |
| Client.AuthHeaders | shopware.py:22-30 | the caller's headers override the defaults key by key, the defaults fill in the rest, and nothing else is sent |
| Client.TokenRequest | shopware.py:87-95 | the token fetch is a POST of the client-credentials form to `base_url/api/oauth/token` with exactly the fields `grant_type=client_credentials`, `client_id`, `client_secret`, no headers and no body |
| Client.TokenFrom | shopware.py:97 | a token is obtained iff the call succeeded with a dictionary holding a string `access_token`; a failed call's error propagates |
| Client.CallSpec | shopware.py:21-45 | the whole of one `call`: one to three requests, the first to the endpoint's URL; the token changes only when three requests were sent |
| Client.Recover | shopware.py:36-43 | the 401 branch: the token fetch is sent first; the retry follows iff the fetch yields a token, and carries `Authorization: Bearer <new token>` |
| Client.FirstAttempt | shopware.py:21-35 | the first request is always sent with the current token's merged headers; further requests follow iff it got a 401 |
| Client.NoRetryUnlessUnauthorized | shopware.py:32-45 | any outcome but a 401 is the call's result: one request, token unchanged |
| Client.FailedRefreshEndsCall | shopware.py:36-45 | after a 401, a failed token fetch ends the call with its error and keeps the old token |
| Client.RetryOnce | shopware.py:36-43 | after a 401 and a successful fetch, the same request is retried exactly once with only `Authorization` rebuilt from the new token, even over a caller-supplied one; its outcome, a second 401 included, is the result |
| Client.CallBounds | shopware.py:21-45 | a call sends between one and three requests, consumes one reply per request, and changes the token only through a successful fetch |
| Client.ExpiredTokenScenario | shopware.py:21-43 | 401, new token, 200: the call returns the 200 payload after three requests, the first with the old token and the retry with the new |
| Client.SyncHeaders | shopware.py:76-78 | `indexing-behavior` is set to the mode iff it is `use-queue-indexing` or `disable-indexing`; the other headers are unchanged; for any other mode the dictionary is left exactly as it was |
| Client.ApiClient.Connect | shopware.py:14-19 | construction fetches the first token and fails with that fetch; a new client holds the given base URL, key id, key secret and transport, and the fetched token |
| Client.ApiClient.UnauthenticatedCall | shopware.py:47-74 | sends `BuildRequest(...)` and returns `Outcome` of the reply |
| Client.ApiClient.GetAccessToken | shopware.py:87-97 | sends the token request and returns `TokenFrom` of its outcome |
| Client.ApiClient.RefreshToken | shopware.py:82-85 | `bearer_token` is replaced by the fetched token, and only when the fetch succeeds |
| Client.ApiClient.Call | shopware.py:21-45 | result, new `bearer_token`, requests sent and replies consumed are those of `CallSpec` |
| Client.ApiClient.SyncCall | shopware.py:76-80 | the caller's header dictionary becomes `SyncHeaders` of its old entries, and the call to `_action/sync` with it is that of `CallSpec` |

## Left out

- The HTTP transport (`urllib3.PoolManager` and its options) is replaced by a scripted `Transport`, and its exceptions by `Raised`. An exhausted script counts as the transport raising.
- JSON text encoding and decoding, and UTF-8, are outside the model. A reply carries its decoded body, or `None` when the body is not JSON. The payload is sent as a `Json` value.
- Client.Outcome: Python returns `None` both for a body that is JSON `null` and for one that is not JSON (lines 72-74). The model keeps `Ok(Some(JNull))` and `Ok(None)` apart. Nothing in the model depends on the difference: `TokenFrom` raises the same error for both.
- The `print` calls are outside the model: the undecodable body at line 74 and "Refreshing Token" at line 83.
- `generate_uuid` is outside the model. It depends on randomness.
- Concurrency on the shared `bearer_token` is not modelled.
- The shared mutable default `headers={}` of `sync_call` is not modelled. Only the update of the dictionary actually passed is modelled; aliasing across calls is not.
- JSON numbers are integers only. Floats play no part in any decision the core makes.
- Dictionary key order is not modelled. Entities are maps, so the insertion order of the result dictionaries is lost. Iteration order does matter for relationships, which are modelled as an ordered sequence with distinct names.
- Malformed identifiers and resources are not modelled:
  - an identifier object or resource that lacks `type` or `id`;
  - a to-many list element that is not an object;
  - a row without `id`;
  - an `attributes` member that is JSON null rather than absent;
  - `data` given as a single resource object, as single-entity reads return it: line 160 iterates its keys and line 161 raises `TypeError`;
  - `included`, `data` or `relationships` given as JSON null rather than absent: Python raises `TypeError` at line 107 or 160, or `AttributeError` at line 133, where the model's absent member raises `KeyError`;
  - a relationship member that is not an object: Python raises `TypeError` at line 134.

  Each of these raises in Python, but is not representable here: documents are typed, and `None` stands only for an absent member.
- Resolve.ResolveEntity: `fuel` counts nested entity resolutions, not Python stack frames. The exact depth at which Python's recursion limit strikes is therefore not modelled; only that some limit exists and that cycles always reach it.
- Denormalize.ParseApiResponse: it requires the rows' attribute dictionaries to be distinct objects, as in any decoded document. A hand-built document that shares one dictionary between rows is not covered.
- Client.TokenFrom: an `access_token` that is not a string is treated as an error (`NonStringToken`). Python would format it into the header with `str()`.
- Client.ApiClient.SyncCall: the caller always passes a header dictionary. `sync_call(data, headers=None)` with an indexing mode would raise `TypeError`, and that case is not modelled.
- Chunks.SyncChunks returns the whole list of chunks instead of a lazy generator. A negative size yields nothing, as `range` with a negative step does from 0 to a non-negative length.

=== FILE: chunks.dfy ===
/** `get_sync_chunks` (shopware.py): the slices `data[i : i + chunk_size]`
    for `i` in `range(0, len(data), chunk_size)`, as a sequence rather than a
    lazy generator. */
module Chunks {
  import opened Wrappers

  /** `range()` refuses a step of zero (Python raises `ValueError`). */
  datatype ChunkError = ZeroStep

  function Min(a: int, b: int): int {
    if a < b then a else b
  }

  /** The slices starting at `start`, `start + size`, … while below
      `|data|`; a slice running past the end is cut short, as Python's
      slicing does. */
  function SlicesFrom<T>(data: seq<T>, start: nat, size: nat): seq<seq<T>>
    requires size > 0
    decreases |data| - start
  {
    if start >= |data| then []
    else [data[start..Min(start + size, |data|)]] + SlicesFrom(data, start + size, size)
  }

  /** `get_sync_chunks(data, chunk_size)`: a zero size is refused by
      `range()`, a negative one gives an empty range and so no chunks. */
  function SyncChunks<T>(data: seq<T>, size: int): (r: Result<seq<seq<T>>, ChunkError>)
    ensures r.Err? <==> size == 0
    ensures size < 0 ==> r == Ok([])
  {
    if size == 0 then Err(ZeroStep)
    else if size < 0 then Ok([])
    else Ok(SlicesFrom(data, 0, size))
  }

  /** The concatenation of a sequence of chunks. */
  function Flatten<T>(chunks: seq<seq<T>>): seq<T> {
    if chunks == [] then [] else chunks[0] + Flatten(chunks[1..])
  }

  lemma {:induction false} SlicesConcat<T>(data: seq<T>, start: nat, size: nat)
    requires size > 0 && start <= |data|
    ensures Flatten(SlicesFrom(data, start, size)) == data[start..]
    decreases |data| - start
  {
    if start < |data| {
      var end := Min(start + size, |data|);
      SlicesConcat(data, end, size);
      if end < start + size {
        assert SlicesFrom(data, start + size, size) == [];
      }
      assert data[start..] == data[start..end] + data[end..];
    }
  }

  /** Every chunk is non-empty and at most `size` long, and every chunk but
      the last is exactly `size` long. */
  predicate WellSized<T>(chunks: seq<seq<T>>, size: nat) {
    forall k :: 0 <= k < |chunks| ==>
      && 0 < |chunks[k]| <= size
      && (k < |chunks| - 1 ==> |chunks[k]| == size)
  }

  lemma {:induction false} SlicesLengths<T>(data: seq<T>, start: nat, size: nat)
    requires size > 0
    ensures WellSized(SlicesFrom(data, start, size), size)
    decreases |data| - start
  {
    if start < |data| {
      SlicesLengths(data, start + size, size);
      var chunks := SlicesFrom(data, start, size);
      var rest := SlicesFrom(data, start + size, size);
      assert chunks == [data[start..Min(start + size, |data|)]] + rest;
      forall k | 0 <= k < |chunks|
        ensures 0 < |chunks[k]| <= size
        ensures k < |chunks| - 1 ==> |chunks[k]| == size
      {
        if k == 0 {
          assert |chunks[0]| == Min(start + size, |data|) - start;
          if rest != [] {
            assert start + size < |data|;
          }
        } else {
          assert chunks[k] == rest[k - 1];
          assert 0 < |rest[k - 1]| <= size;
          assert k - 1 < |rest| - 1 ==> |rest[k - 1]| == size;
        }
      }
    }
  }

  /** The number of slices is the least `c` with `c * size` covering what is
      left, i.e. `ceil((|data| - start) / size)`. */
  lemma {:induction false} SlicesCount<T>(data: seq<T>, start: nat, size: nat)
    requires size > 0 && start <= |data|
    ensures var c := |SlicesFrom(data, start, size)|;
      && |data| - start <= c * size
      && (c > 0 ==> (c - 1) * size < |data| - start)
    decreases |data| - start
  {
    var n := |data| - start;
    if n > 0 {
      if n <= size {
        assert SlicesFrom(data, start + size, size) == [];
      } else {
        SlicesCount(data, start + size, size);
        var c' := |SlicesFrom(data, start + size, size)|;
        assert |SlicesFrom(data, start, size)| == c' + 1;
        assert (c' + 1) * size == c' * size + size;
      }
    }
  }

  /** Concatenating the chunks gives back the data exactly. */
  lemma ChunksRoundTrip<T>(data: seq<T>, size: int)
    requires size > 0
    ensures SyncChunks(data, size).Ok?
    ensures Flatten(SyncChunks(data, size).value) == data
  {
    SlicesConcat(data, 0, size);
  }

  /** The chunks are well sized and there are `ceil(|data| / size)` of
      them (the least count whose full chunks would cover the data). */
  lemma ChunksShape<T>(data: seq<T>, size: int)
    requires size > 0
    ensures var chunks := SyncChunks(data, size).value;
      && |data| <= |chunks| * size
      && (|chunks| > 0 ==> (|chunks| - 1) * size < |data|)
      && WellSized(chunks, size)
  {
    SlicesLengths(data, 0, size);
    SlicesCount(data, 0, size);
  }

  /** Ten elements in chunks of three. */
  lemma ChunksOfThree()
    ensures SyncChunks([1, 2, 3, 4, 5, 6, 7, 8, 9, 10], 3) == Ok([[1, 2, 3], [4, 5, 6], [7, 8, 9], [10]])
  {
    var data := [1, 2, 3, 4, 5, 6, 7, 8, 9, 10];
    assert SlicesFrom(data, 12, 3) == [];
    assert data[9..10] == [10];
    assert SlicesFrom(data, 9, 3) == [[10]];
    assert data[6..9] == [7, 8, 9];
    assert SlicesFrom(data, 6, 3) == [[7, 8, 9], [10]];
    assert data[3..6] == [4, 5, 6];
    assert SlicesFrom(data, 3, 3) == [[4, 5, 6], [7, 8, 9], [10]];
    assert data[0..3] == [1, 2, 3];
    assert SlicesFrom(data, 0, 3) == [[1, 2, 3], [4, 5, 6], [7, 8, 9], [10]];
  }
}

=== FILE: client.dfy ===
/** `ApiClient` (shopware.py): authenticated calls to a Shopware Admin API.
    The HTTP pool is replaced by a `Transport` that answers from a script of
    replies and logs every request it is given, so a whole exchange (first
    attempt, token refresh, retry) can be stated as a pure function of the
    script and proved about. */
module Client {
  import opened Wrappers
  import opened Json

  datatype HttpMethod = GET | POST

  type Headers = map<string, string>

  /** One request as handed to the transport: `fields` are form fields,
      `body` the JSON payload (its text encoding is not modelled), `headers`
      absent when the caller gave none. */
  datatype HttpRequest = HttpRequest(
    verb: HttpMethod,
    url: string,
    fields: Option<map<string, string>>,
    body: Option<Json>,
    headers: Option<Headers>)

  /** What the transport does with one request: it answers with a status,
      the body text and the body decoded as JSON (`None` when the text is
      not JSON), or it raises (connection refused, timeout, …). */
  datatype Reply =
    | Response(status: int, text: string, decoded: Option<Json>)
    | Raised

  /** The exceptions a call can end with. */
  datatype ApiError =
    | TransportError                          // raised by the HTTP pool
    | HttpStatus(status: int, text: string)   // HTTPResponseException
    | TokenTypeError                          // token response is not a dict
    | TokenKeyError                           // no "access_token" in it
    | NonStringToken                          // see README, Left out

  /** A call returns the decoded body, or `None` when it was not JSON. */
  type CallResult = Result<Option<Json>, ApiError>

  /** The HTTP pool: replies are taken from `script` in order (an exhausted
      script raises), requests are appended to `log`. */
  class Transport {
    var script: seq<Reply>
    var log: seq<HttpRequest>

    constructor (script: seq<Reply>)
      ensures this.script == script && log == []
    {
      this.script := script;
      log := [];
    }

    method Request(req: HttpRequest) returns (reply: Reply)
      modifies this
      ensures reply == Head(old(script))
      ensures script == Tail(old(script))
      ensures log == old(log) + [req]
    {
      reply := Head(script);
      script := Tail(script);
      log := log + [req];
    }
  }

  /** The next reply of a script; an exhausted script raises. */
  function Head(script: seq<Reply>): Reply {
    if script == [] then Raised else script[0]
  }

  function Tail(script: seq<Reply>): seq<Reply> {
    if script == [] then [] else script[1..]
  }

  /** Whether `data` is given: Python's `None` is the only value that is
      not, and a JSON null is that same `None`, so `Some(JNull)` counts as
      no payload. */
  predicate HasPayload(data: Option<Json>) {
    data.Some? && !data.value.JNull?
  }

  /** `POST` when there are form fields or a payload, `GET` otherwise. */
  function MethodFor(fields: Option<map<string, string>>, data: Option<Json>): (m: HttpMethod)
    ensures m == POST <==> fields.Some? || HasPayload(data)
  {
    if fields.Some? then POST
    else if HasPayload(data) then POST
    else GET
  }

  /** The endpoint names a full URL exactly when its first four characters
      are "http" (a shorter endpoint never does). */
  predicate IsAbsolute(endpoint: string) {
    |endpoint| >= 4 && endpoint[..4] == "http"
  }

  /** The request URL: a full URL is used verbatim, anything else is a path
      under the shop's `/api/`. */
  function UrlFor(baseUrl: string, endpoint: string): string {
    if IsAbsolute(endpoint) then endpoint else baseUrl + "/api/" + endpoint
  }

  /** The URL always ends with the endpoint; it is the endpoint itself when
      that is a full URL, and otherwise starts with the shop's API root. */
  lemma UrlShape(baseUrl: string, endpoint: string)
    ensures var url := UrlFor(baseUrl, endpoint);
      && |url| >= |endpoint| && url[|url| - |endpoint|..] == endpoint
      && (IsAbsolute(endpoint) ==> url == endpoint)
      && (!IsAbsolute(endpoint) ==>
            |url| == |baseUrl| + 5 + |endpoint| && url[..|baseUrl| + 5] == baseUrl + "/api/")
  {
    var url := UrlFor(baseUrl, endpoint);
    if !IsAbsolute(endpoint) {
      assert url == (baseUrl + "/api/") + endpoint;
    }
  }

  /** With an API root that is itself a full URL, building a URL twice
      changes nothing: a built URL is used verbatim. */
  lemma UrlIdempotent(baseUrl: string, endpoint: string)
    requires IsAbsolute(baseUrl)
    ensures UrlFor(baseUrl, UrlFor(baseUrl, endpoint)) == UrlFor(baseUrl, endpoint)
  {
    var url := UrlFor(baseUrl, endpoint);
    if !IsAbsolute(endpoint) {
      assert url[..4] == baseUrl[..4];
    }
  }

  /** `unauthenticated_call`'s request: form fields take precedence over a
      payload, which is then not sent. */
  function BuildRequest(
    baseUrl: string, endpoint: string,
    fields: Option<map<string, string>>, data: Option<Json>, headers: Option<Headers>): (req: HttpRequest)
    ensures req.verb == MethodFor(fields, data)
    ensures req.url == UrlFor(baseUrl, endpoint)
    ensures req.fields == fields && req.headers == headers
    ensures req.body.Some? <==> fields.None? && HasPayload(data)
    ensures req.body.Some? ==> req.body == data
  {
    HttpRequest(
      MethodFor(fields, data),
      UrlFor(baseUrl, endpoint),
      fields,
      if fields.Some? || !HasPayload(data) then None else data,
      headers)
  }

  /** A JSON null payload is Python's `None`: the request is the one sent
      with no payload, a `GET` unless there are form fields. */
  lemma NullPayloadIsNone(
    baseUrl: string, endpoint: string, fields: Option<map<string, string>>, headers: Option<Headers>)
    ensures BuildRequest(baseUrl, endpoint, fields, Some(JNull), headers)
         == BuildRequest(baseUrl, endpoint, fields, None, headers)
    ensures fields.None? ==> BuildRequest(baseUrl, endpoint, fields, Some(JNull), headers).verb == GET
  {
  }

  /** The result of one `unauthenticated_call` given the reply: any status
      outside 200..299 raises with the body text, a body that is not JSON
      gives `None`, and an exception from the pool passes through as it is
      (so it is never mistaken for a 401). Python returns `None` for a body
      that is JSON `null` as well as for one that is not JSON; the model
      keeps `Some(JNull)` and `None` apart; `TokenFrom`, the only part of the
      model that inspects a call's value, raises the same error for both. */
  function Outcome(reply: Reply): (r: CallResult)
    ensures r.Err? <==> reply.Raised? || !(200 <= reply.status < 300)
    ensures reply.Raised? ==> r == Err(TransportError)
    ensures reply.Response? && r.Err? ==> r.error == HttpStatus(reply.status, reply.text)
    ensures r.Ok? ==> r.value == reply.decoded
  {
    match reply
    case Raised => Err(TransportError)
    case Response(status, text, decoded) =>
      if status < 200 || status >= 300 then Err(HttpStatus(status, text))
      else Ok(decoded)
  }

  /** The outcome raised `HTTPResponseException` with status 401. */
  predicate Unauthorized(r: CallResult) {
    r.Err? && r.error.HttpStatus? && r.error.status == 401
  }

  function DefaultHeaders(token: string): (h: Headers)
    ensures h.Keys == {"Authorization", "Content-Type", "Accept"}
    ensures h["Authorization"] == "Bearer " + token
  {
    map[
      "Authorization" := "Bearer " + token,
      "Content-Type" := "application/json",
      "Accept" := "application/vnd.api+json"]
  }

  /** `call`'s headers: the defaults, updated with the caller's, which
      override them; nothing else is sent. */
  function AuthHeaders(token: string, headers: Option<Headers>): (h: Headers)
    ensures headers.None? ==> h == DefaultHeaders(token)
    ensures headers.Some? ==> h.Keys == DefaultHeaders(token).Keys + headers.value.Keys
    ensures headers.Some? ==> forall k :: k in headers.value ==> h[k] == headers.value[k]
    ensures forall k :: k in DefaultHeaders(token) && (headers.None? || k !in headers.value) ==>
      h[k] == DefaultHeaders(token)[k]
  {
    if headers.Some? then DefaultHeaders(token) + headers.value else DefaultHeaders(token)
  }

  /** The client-credentials grant `_get_access_token` posts. */
  function TokenRequest(baseUrl: string, keyId: string, keySecret: string): (req: HttpRequest)
    ensures req.verb == POST && req.url == baseUrl + "/api/oauth/token"
    ensures req.headers.None? && req.body.None?
    ensures req.fields == Some(map[
      "grant_type" := "client_credentials", "client_id" := keyId, "client_secret" := keySecret])
  {
    assert !IsAbsolute("oauth/token") by { assert "oauth/token"[..4] == "oaut"; }
    BuildRequest(baseUrl, "oauth/token",
      Some(map["grant_type" := "client_credentials", "client_id" := keyId, "client_secret" := keySecret]),
      None, None)
  }

  /** `token_response["access_token"]`: the call's own error propagates; a
      result that is not a dict cannot be indexed by a string, a dict
      without the key raises `KeyError`. */
  function TokenFrom(r: CallResult): (t: Result<string, ApiError>)
    ensures t.Ok? <==>
      && r.Ok? && r.value.Some? && r.value.value.JObj?
      && "access_token" in r.value.value.fields
      && r.value.value.fields["access_token"].JStr?
    ensures t.Ok? ==> t.value == r.value.value.fields["access_token"].s
    ensures r.Err? ==> t == Err(r.error)
  {
    var response :- r;
    match response
    case Some(JObj(fields)) =>
      if "access_token" !in fields then Err(TokenKeyError)
      else if fields["access_token"].JStr? then Ok(fields["access_token"].s)
      else Err(NonStringToken)
    case _ => Err(TokenTypeError)
  }

  /** Everything one `call` does: its result, the bearer token afterwards,
      the requests sent and the replies left. */
  datatype Exchange = Exchange(result: CallResult, token: string, sent: seq<HttpRequest>, rest: seq<Reply>)

  /** `call`: one attempt with the current token; on a 401 the token is
      fetched again and the request retried once (`Recover`). */
  function CallSpec(
    baseUrl: string, keyId: string, keySecret: string, token: string, script: seq<Reply>,
    endpoint: string, fields: Option<map<string, string>>, data: Option<Json>, headers: Option<Headers>): (e: Exchange)
    ensures 1 <= |e.sent| <= 3
    ensures e.sent[0].url == UrlFor(baseUrl, endpoint)
    ensures e.token != token ==> |e.sent| == 3
  {
    var auth := AuthHeaders(token, headers);
    var first := BuildRequest(baseUrl, endpoint, fields, data, Some(auth));
    var outcome := Outcome(Head(script));
    if !Unauthorized(outcome) then
      Exchange(outcome, token, [first], Tail(script))
    else
      var recovery := Recover(baseUrl, keyId, keySecret, token, Tail(script), endpoint, fields, data, auth);
      recovery.(sent := [first] + recovery.sent)
  }

  /** What `call` does after a 401 sent with headers `auth`: it fetches a
      new token and, with it in `Authorization`, retries the request once,
      whatever that retry yields. A failed fetch ends the call with its
      error and leaves the token as it was. */
  function Recover(
    baseUrl: string, keyId: string, keySecret: string, token: string, script: seq<Reply>,
    endpoint: string, fields: Option<map<string, string>>, data: Option<Json>, auth: Headers): (e: Exchange)
    ensures 1 <= |e.sent| <= 2 && e.sent[0] == TokenRequest(baseUrl, keyId, keySecret)
    ensures |e.sent| == 2 <==> TokenFrom(Outcome(Head(script))).Ok?
    ensures |e.sent| == 2 ==>
      var h := e.sent[1].headers;
      h.Some? && "Authorization" in h.value && h.value["Authorization"] == "Bearer " + e.token
  {
    var refresh := TokenRequest(baseUrl, keyId, keySecret);
    var renewed := TokenFrom(Outcome(Head(script)));
    if renewed.Err? then
      Exchange(Err(renewed.error), token, [refresh], Tail(script))
    else
      var retry := BuildRequest(baseUrl, endpoint, fields, data,
        Some(auth["Authorization" := "Bearer " + renewed.value]));
      Exchange(Outcome(Head(Tail(script))), renewed.value, [refresh, retry], Tail(Tail(script)))
  }

  /** The first attempt always goes out, with the current token's headers
      as updated by the caller's; a 401 is the only outcome that leads to
      further requests. */
  lemma FirstAttempt(
    baseUrl: string, keyId: string, keySecret: string, token: string, script: seq<Reply>,
    endpoint: string, fields: Option<map<string, string>>, data: Option<Json>, headers: Option<Headers>)
    ensures var e := CallSpec(baseUrl, keyId, keySecret, token, script, endpoint, fields, data, headers);
      && |e.sent| >= 1
      && e.sent[0] == BuildRequest(baseUrl, endpoint, fields, data, Some(AuthHeaders(token, headers)))
      && (|e.sent| > 1 <==> Unauthorized(Outcome(Head(script))))
  {
  }

  /** Any outcome but a 401 — success, another status, a transport
      failure — is the call's result as it stands: no refresh, no retry. */
  lemma NoRetryUnlessUnauthorized(
    baseUrl: string, keyId: string, keySecret: string, token: string, script: seq<Reply>,
    endpoint: string, fields: Option<map<string, string>>, data: Option<Json>, headers: Option<Headers>)
    requires !Unauthorized(Outcome(Head(script)))
    ensures var e := CallSpec(baseUrl, keyId, keySecret, token, script, endpoint, fields, data, headers);
      && e.result == Outcome(Head(script))
      && |e.sent| == 1 && e.token == token && e.rest == Tail(script)
  {
  }

  /** After a 401 the next request is the token fetch; if it fails, the
      call fails with its error and the token is kept. */
  lemma FailedRefreshEndsCall(
    baseUrl: string, keyId: string, keySecret: string, token: string, script: seq<Reply>,
    endpoint: string, fields: Option<map<string, string>>, data: Option<Json>, headers: Option<Headers>)
    requires Unauthorized(Outcome(Head(script)))
    requires TokenFrom(Outcome(Head(Tail(script)))).Err?
    ensures var e := CallSpec(baseUrl, keyId, keySecret, token, script, endpoint, fields, data, headers);
      && e.sent == [e.sent[0], TokenRequest(baseUrl, keyId, keySecret)]
      && e.result == Err(TokenFrom(Outcome(Head(Tail(script)))).error)
      && e.token == token
  {
  }

  /** After a 401 and a successful fetch the request is retried exactly
      once: the same request with only `Authorization` rebuilt from the new
      token (even one the caller supplied), and the retry's outcome —
      a second 401 included — is the call's result. */
  lemma RetryOnce(
    baseUrl: string, keyId: string, keySecret: string, token: string, script: seq<Reply>,
    endpoint: string, fields: Option<map<string, string>>, data: Option<Json>, headers: Option<Headers>)
    requires Unauthorized(Outcome(Head(script)))
    requires TokenFrom(Outcome(Head(Tail(script)))).Ok?
    ensures var e := CallSpec(baseUrl, keyId, keySecret, token, script, endpoint, fields, data, headers);
      var newToken := TokenFrom(Outcome(Head(Tail(script)))).value;
      && |e.sent| == 3
      && e.sent[1] == TokenRequest(baseUrl, keyId, keySecret)
      && e.sent[2] == e.sent[0].(headers := Some(e.sent[0].headers.value["Authorization" := "Bearer " + newToken]))
      && e.token == newToken
      && e.result == Outcome(Head(Tail(Tail(script))))
      && (Unauthorized(Outcome(Head(Tail(Tail(script))))) ==> Unauthorized(e.result))
  {
  }

  /** A call sends at most three requests, consumes one reply per request,
      and changes the token only through a successful fetch. */
  lemma CallBounds(
    baseUrl: string, keyId: string, keySecret: string, token: string, script: seq<Reply>,
    endpoint: string, fields: Option<map<string, string>>, data: Option<Json>, headers: Option<Headers>)
    ensures var e := CallSpec(baseUrl, keyId, keySecret, token, script, endpoint, fields, data, headers);
      && 1 <= |e.sent| <= 3
      && (|script| >= |e.sent| ==> e.rest == script[|e.sent|..])
      && (e.token != token ==> |e.sent| == 3 && e.token == TokenFrom(Outcome(Head(Tail(script)))).value)
  {
  }

  /** An expired token: the first attempt gets a 401, the fetch returns a
      new token, the retry succeeds. The call returns the retry's payload
      after three requests (the fetch is one of them) and keeps the token. */
  lemma ExpiredTokenScenario(baseUrl: string, keyId: string, keySecret: string, endpoint: string, payload: Json)
    ensures var script := [
        Response(401, "expired", None),
        Response(200, "", Some(JObj(map["access_token" := JStr("t2")]))),
        Response(200, "", Some(payload))];
      var e := CallSpec(baseUrl, keyId, keySecret, "t1", script, endpoint, None, None, None);
      && e.result == Ok(Some(payload))
      && e.token == "t2"
      && |e.sent| == 3 && e.rest == []
      && e.sent[0].headers.value["Authorization"] == "Bearer t1"
      && e.sent[2].headers.value["Authorization"] == "Bearer t2"
  {
    var script := [
      Response(401, "expired", None),
      Response(200, "", Some(JObj(map["access_token" := JStr("t2")]))),
      Response(200, "", Some(payload))];
    assert Tail(script) == script[1..];
    assert Tail(Tail(script)) == script[2..];
    assert Tail(Tail(Tail(script))) == [];
  }

  /** The headers `sync_call` passes on: an `indexing-behavior` entry is set
      for the two recognised indexing modes, anything else is ignored. */
  function SyncHeaders(headers: Headers, indexing: Option<string>): (h: Headers)
    ensures "indexing-behavior" in h <==>
      "indexing-behavior" in headers || (indexing.Some? && indexing.value in {"use-queue-indexing", "disable-indexing"})
    ensures indexing.Some? && indexing.value in {"use-queue-indexing", "disable-indexing"} ==>
      h["indexing-behavior"] == indexing.value
    ensures forall k :: k in headers && k != "indexing-behavior" ==> k in h && h[k] == headers[k]
    ensures h.Keys <= headers.Keys + {"indexing-behavior"}
    ensures !(indexing.Some? && indexing.value in {"use-queue-indexing", "disable-indexing"}) ==> h == headers
  {
    if indexing.Some? && indexing.value in ["use-queue-indexing", "disable-indexing"] then
      headers["indexing-behavior" := indexing.value]
    else headers
  }

  class ApiClient {
    const baseUrl: string
    const keyId: string
    const keySecret: string
    const transport: Transport
    var bearerToken: string

    /** The object before its first token is set; `Connect` is the
        constructor a caller uses. */
    constructor Init(baseUrl: string, keyId: string, keySecret: string, transport: Transport)
      ensures this.baseUrl == baseUrl && this.keyId == keyId && this.keySecret == keySecret
      ensures this.transport == transport && bearerToken == ""
    {
      this.baseUrl := baseUrl;
      this.keyId := keyId;
      this.keySecret := keySecret;
      this.transport := transport;
      bearerToken := "";
    }

    /** `ApiClient(...)`: construction fetches the first token, and fails
        with the fetch. */
    static method Connect(baseUrl: string, keyId: string, keySecret: string, transport: Transport)
      returns (r: Result<ApiClient, ApiError>)
      modifies transport
      ensures var t := TokenFrom(Outcome(Head(old(transport.script))));
        && (r.Ok? <==> t.Ok?)
        && (r.Err? ==> r.error == t.error)
        && (r.Ok? ==>
              && fresh(r.value)
              && r.value.bearerToken == t.value && r.value.transport == transport
              && r.value.baseUrl == baseUrl && r.value.keyId == keyId && r.value.keySecret == keySecret)
      ensures transport.script == Tail(old(transport.script))
      ensures transport.log == old(transport.log) + [TokenRequest(baseUrl, keyId, keySecret)]
    {
      var client := new ApiClient.Init(baseUrl, keyId, keySecret, transport);
      var token := client.GetAccessToken();
      if token.Err? {
        return Err(token.error);
      }
      client.bearerToken := token.value;
      r := Ok(client);
    }

    method UnauthenticatedCall(endpoint: string, fields: Option<map<string, string>>, data: Option<Json>, headers: Option<Headers>)
      returns (r: CallResult)
      modifies transport
      ensures r == Outcome(Head(old(transport.script)))
      ensures transport.script == Tail(old(transport.script))
      ensures transport.log == old(transport.log) + [BuildRequest(baseUrl, endpoint, fields, data, headers)]
    {
      var reply := transport.Request(BuildRequest(baseUrl, endpoint, fields, data, headers));
      r := Outcome(reply);
    }

    method GetAccessToken() returns (t: Result<string, ApiError>)
      modifies transport
      ensures t == TokenFrom(Outcome(Head(old(transport.script))))
      ensures transport.script == Tail(old(transport.script))
      ensures transport.log == old(transport.log) + [TokenRequest(baseUrl, keyId, keySecret)]
    {
      var response := UnauthenticatedCall("oauth/token",
        Some(map["grant_type" := "client_credentials", "client_id" := keyId, "client_secret" := keySecret]),
        None, None);
      t := TokenFrom(response);
    }

    /** `_refresh_token`: the token is replaced only when the fetch succeeds. */
    method RefreshToken() returns (t: Result<string, ApiError>)
      modifies this, transport
      ensures t == TokenFrom(Outcome(Head(old(transport.script))))
      ensures bearerToken == if t.Ok? then t.value else old(bearerToken)
      ensures transport.script == Tail(old(transport.script))
      ensures transport.log == old(transport.log) + [TokenRequest(baseUrl, keyId, keySecret)]
    {
      t := GetAccessToken();
      if t.Ok? {
        bearerToken := t.value;
      }
    }

    method Call(endpoint: string, fields: Option<map<string, string>>, data: Option<Json>, headers: Option<Headers>)
      returns (r: CallResult)
      modifies this, transport
      ensures var e := CallSpec(baseUrl, keyId, keySecret, old(bearerToken), old(transport.script),
          endpoint, fields, data, headers);
        && r == e.result
        && bearerToken == e.token
        && transport.log == old(transport.log) + e.sent
        && transport.script == e.rest
    {
      ghost var script, log, token := transport.script, transport.log, bearerToken;
      var auth := AuthHeaders(bearerToken, headers);
      ghost var first := BuildRequest(baseUrl, endpoint, fields, data, Some(auth));
      r := UnauthenticatedCall(endpoint, fields, data, Some(auth));
      if Unauthorized(r) {
        ghost var recovery := Recover(baseUrl, keyId, keySecret, token, Tail(script), endpoint, fields, data, auth);
        var renewed := RefreshToken();
        if renewed.Err? {
          assert transport.log == old(transport.log) + ([first] + recovery.sent);
          return Err(renewed.error);
        }
        auth := auth["Authorization" := "Bearer " + bearerToken];
        r := UnauthenticatedCall(endpoint, fields, data, Some(auth));
        assert transport.log == old(transport.log) + ([first] + recovery.sent);
      }
    }

    /** `sync_call`: the caller's dictionary itself receives the indexing
        header before the call. */
    method SyncCall(data: Option<Json>, headers: Dict<string>, indexing: Option<string>)
      returns (r: CallResult)
      modifies this, transport, headers
      ensures headers.entries == SyncHeaders(old(headers.entries), indexing)
      ensures var e := CallSpec(baseUrl, keyId, keySecret, old(bearerToken), old(transport.script),
          "_action/sync", None, data, Some(headers.entries));
        && r == e.result
        && bearerToken == e.token
        && transport.log == old(transport.log) + e.sent
        && transport.script == e.rest
    {
      if indexing.Some? && indexing.value in ["use-queue-indexing", "disable-indexing"] {
        headers.entries := headers.entries["indexing-behavior" := indexing.value];
      }
      r := Call("_action/sync", None, data, Some(headers.entries));
    }
  }
}

=== FILE: denormalize.dfy ===
/** `parse_api_response` (shopware.py): a JSON:API document becomes a list of
    flat entities. The rows' own attribute dictionaries are updated in place
    and returned, so the pure definitions below are given on snapshots of
    their entries, and the method is proved against them. */
module Denormalize {
  import opened Wrappers
  import opened Json
  import opened JsonApi
  import opened Resolve

  /** A primary data row. Its attributes are a dictionary object, which
      `parse_api_response` updates in place; `None` when absent. */
  datatype Row = Row(id: string, attributes: Option<Dict<Json>>, relationships: Option<Relationships>)

  /** A decoded response document; a member is `None` when absent. */
  datatype Document = Document(data: Option<seq<Row>>, included: Option<seq<Resource>>)

  /** A row as it stands at one moment: the entries of its attributes. */
  datatype RowValue = RowValue(id: string, attributes: Option<map<string, Json>>, relationships: Option<Relationships>)

  datatype DocumentValue = DocumentValue(data: Option<seq<RowValue>>, included: Option<seq<Resource>>)

  /** The attribute dictionaries of the rows. */
  function DictsOf(rows: seq<Row>): set<Dict<Json>> {
    set k | 0 <= k < |rows| && rows[k].attributes.Some? :: rows[k].attributes.value
  }

  function DocumentDicts(doc: Document): set<Dict<Json>> {
    if doc.data.Some? then DictsOf(doc.data.value) else {}
  }

  /** No two rows share an attribute dictionary, as in any decoded document. */
  predicate DistinctDicts(rows: seq<Row>) {
    forall i, j :: 0 <= i < j < |rows| && rows[i].attributes.Some? && rows[j].attributes.Some? ==>
      rows[i].attributes.value != rows[j].attributes.value
  }

  function Snapshot(row: Row): RowValue
    reads if row.attributes.Some? then {row.attributes.value} else {}
  {
    RowValue(row.id, if row.attributes.Some? then Some(row.attributes.value.entries) else None, row.relationships)
  }

  function Snapshots(rows: seq<Row>): (s: seq<RowValue>)
    reads DictsOf(rows)
  {
    seq(|rows|, k requires 0 <= k < |rows| reads DictsOf(rows) => Snapshot(rows[k]))
  }

  function DocumentSnapshot(doc: Document): DocumentValue
    reads DocumentDicts(doc)
  {
    DocumentValue(if doc.data.Some? then Some(Snapshots(doc.data.value)) else None, doc.included)
  }

  /** A row's attributes once its top-level id has been written into them. */
  function Stamped(row: RowValue): Option<map<string, Json>> {
    if row.attributes.Some? then Some(row.attributes.value["id" := JStr(row.id)]) else None
  }

  /** One iteration of `parse_api_response`: the row's attributes, then its
      id, then its resolved relationships. */
  function FlattenRow(row: RowValue, index: Index, fuel: nat): (r: Result<Entity, ParseError>)
    ensures row.attributes.None? ==> r == Err(KeyError("attributes"))
    ensures row.attributes.Some? && row.relationships.None? ==> r == Err(KeyError("relationships"))
  {
    match row.attributes
    case None => Err(KeyError("attributes"))
    case Some(attributes) =>
      var stamped := attributes["id" := JStr(row.id)];
      match row.relationships
      case None => Err(KeyError("relationships"))
      case Some(rels) =>
        var resolved :- ResolveRelationships(rels, index, fuel);
        Ok(stamped + resolved)
  }

  /** A row with both members flattens exactly when its relationships
      resolve, and otherwise raises their exception. */
  lemma FlattenRowResolves(row: RowValue, index: Index, fuel: nat)
    requires row.attributes.Some? && row.relationships.Some?
    ensures var rr := ResolveRelationships(row.relationships.value, index, fuel);
      && (FlattenRow(row, index, fuel).Ok? <==> rr.Ok?)
      && (rr.Err? ==> FlattenRow(row, index, fuel) == Err(rr.error))
  {
  }

  /** A flat row holds its id, its attributes and its contributing
      relationships, and nothing else. Its `id` is the row's top-level id
      even when the attributes carry an `id` of their own, since the id is
      written after them; only a relationship named `id` replaces it. */
  lemma FlattenRowShape(row: RowValue, index: Index, fuel: nat)
    requires FlattenRow(row, index, fuel).Ok?
    ensures row.attributes.Some? && row.relationships.Some?
    ensures ResolveRelationships(row.relationships.value, index, fuel).Ok?
    ensures var m := FlattenRow(row, index, fuel).value;
      var resolved := ResolveRelationships(row.relationships.value, index, fuel).value;
      forall key :: key in resolved ==> m[key] == resolved[key]
    ensures var m := FlattenRow(row, index, fuel).value;
      var names := ContributingNames(row.relationships.value);
      && m.Keys == {"id"} + row.attributes.value.Keys + names
      && ("id" !in names ==> m["id"] == JStr(row.id))
      && (forall key :: key in row.attributes.value && key != "id" && key !in names ==>
            m[key] == row.attributes.value[key])
  {
  }

  /** The rows flattened in order; the first exception raised wins. */
  function FlattenRows(rows: seq<RowValue>, index: Index, fuel: nat): (r: Result<seq<Entity>, ParseError>)
    ensures r.Ok? ==> |r.value| == |rows|
  {
    if rows == [] then Ok([])
    else
      var first :- FlattenRow(rows[0], index, fuel);
      var rest :- FlattenRows(rows[1..], index, fuel);
      Ok([first] + rest)
  }

  /** The denormalised document: `included` is read first and must be
      present, then `data`; there is no fallback when either is missing. */
  function Denormalize(doc: DocumentValue, fuel: nat): (r: Result<seq<Entity>, ParseError>)
    ensures doc.included.None? ==> r == Err(KeyError("included"))
    ensures doc.included.Some? && doc.data.None? ==> r == Err(KeyError("data"))
    ensures r.Ok? ==> |r.value| == |doc.data.value|
  {
    match doc.included
    case None => Err(KeyError("included"))
    case Some(included) =>
      match doc.data
      case None => Err(KeyError("data"))
      case Some(rows) => FlattenRows(rows, Grouped(included), fuel)
  }

  /** The position of the first row that fails to flatten, or the number of
      rows when none does. */
  function FirstFailure(rows: seq<RowValue>, index: Index, fuel: nat): (n: nat)
    ensures n <= |rows|
    ensures forall k :: 0 <= k < n ==> FlattenRow(rows[k], index, fuel).Ok?
    ensures n < |rows| ==> FlattenRow(rows[n], index, fuel).Err?
    decreases |rows|
  {
    if rows == [] || FlattenRow(rows[0], index, fuel).Err? then 0
    else 1 + FirstFailure(rows[1..], index, fuel)
  }

  /** The attribute entries each row holds once `parse_api_response` has
      returned or raised, given the entries before the call: the rows before
      the first failing one hold their flat entities, the failing row holds
      its attributes with the id written in, later rows are untouched. */
  function EntriesAfter(rows: seq<RowValue>, index: Index, fuel: nat): (after: seq<Option<map<string, Json>>>)
    ensures |after| == |rows|
    ensures forall k :: 0 <= k < |rows| ==> (after[k].Some? <==> rows[k].attributes.Some?)
    ensures forall k :: 0 <= k < |rows| && after[k].Some? ==> "id" in after[k].value || after[k] == rows[k].attributes
  {
    var n := FirstFailure(rows, index, fuel);
    seq(|rows|, k requires 0 <= k < |rows| =>
      if k < n then Some(FlattenRow(rows[k], index, fuel).value)
      else if k == n then Stamped(rows[k])
      else rows[k].attributes)
  }

  /** When every row flattens, the result holds one flat entity per row, in
      row order. */
  lemma {:induction false} FlattenRowsAllOk(rows: seq<RowValue>, index: Index, fuel: nat)
    requires forall k :: 0 <= k < |rows| ==> FlattenRow(rows[k], index, fuel).Ok?
    ensures FlattenRows(rows, index, fuel).Ok?
    ensures forall k :: 0 <= k < |rows| ==>
      FlattenRows(rows, index, fuel).value[k] == FlattenRow(rows[k], index, fuel).value
    decreases |rows|
  {
    if rows != [] {
      FlattenRowsAllOk(rows[1..], index, fuel);
      assert forall k :: 1 <= k < |rows| ==> rows[k] == rows[1..][k - 1];
    }
  }

  /** When row `n` is the first that fails, the call raises that row's
      exception. */
  lemma {:induction false} FlattenRowsFirstError(rows: seq<RowValue>, index: Index, fuel: nat, n: nat)
    requires n < |rows|
    requires forall k :: 0 <= k < n ==> FlattenRow(rows[k], index, fuel).Ok?
    requires FlattenRow(rows[n], index, fuel).Err?
    ensures FlattenRows(rows, index, fuel) == Err(FlattenRow(rows[n], index, fuel).error)
    decreases n
  {
    if n > 0 {
      assert forall k :: 0 <= k < n - 1 ==> rows[1..][k] == rows[k + 1];
      FlattenRowsFirstError(rows[1..], index, fuel, n - 1);
    }
  }

  /** A document with no rows denormalises to the empty list. */
  lemma EmptyDocument(included: seq<Resource>, fuel: nat)
    ensures Denormalize(DocumentValue(Some([]), Some(included)), fuel) == Ok([])
  {
  }

  /** The body of the loop of `parse_api_response` for one row: the id is
      written into the row's attributes dictionary before its relationships
      are resolved, so a row that then fails keeps the id. */
  method FlattenRowInPlace(row: Row, index: Index, fuel: nat) returns (r: Result<Dict<Json>, ParseError>)
    modifies if row.attributes.Some? then {row.attributes.value} else {}
    ensures var spec := FlattenRow(old(Snapshot(row)), index, fuel);
      && (r.Ok? <==> spec.Ok?)
      && (r.Err? ==> r.error == spec.error)
      && (r.Ok? ==> Some(r.value) == row.attributes && r.value.entries == spec.value)
    ensures r.Err? && row.attributes.Some? ==>
      Some(row.attributes.value.entries) == Stamped(old(Snapshot(row)))
  {
    if row.attributes.None? {
      return Err(KeyError("attributes"));
    }
    var attributes := row.attributes.value;
    attributes.entries := attributes.entries["id" := JStr(row.id)];
    if row.relationships.None? {
      return Err(KeyError("relationships"));
    }
    var resolved := ResolveRelationships(row.relationships.value, index, fuel);
    if resolved.Err? {
      return Err(resolved.error);
    }
    attributes.entries := attributes.entries + resolved.value;
    r := Ok(attributes);
  }

  /** The rows' attribute entries, as they stand. */
  function AttributesOf(rows: seq<RowValue>): seq<Option<map<string, Json>>> {
    seq(|rows|, k requires 0 <= k < |rows| => rows[k].attributes)
  }

  /** The entries after the loop stopped at row `n`, built up step by step,
      are those `EntriesAfter` describes. */
  lemma EntriesAfterStopped(rows: seq<RowValue>, index: Index, fuel: nat, n: nat, entries: seq<Option<map<string, Json>>>)
    requires n <= |rows| == |entries|
    requires forall k :: 0 <= k < n ==> FlattenRow(rows[k], index, fuel).Ok?
    requires n < |rows| ==> FlattenRow(rows[n], index, fuel).Err?
    requires forall k :: 0 <= k < n ==> entries[k] == Some(FlattenRow(rows[k], index, fuel).value)
    requires n < |rows| ==> entries[n] == Stamped(rows[n])
    requires forall k :: n < k < |rows| ==> entries[k] == rows[k].attributes
    ensures entries == EntriesAfter(rows, index, fuel)
  {
    assert FirstFailure(rows, index, fuel) == n;
  }

  /** The loop of `parse_api_response` over the rows, in order, stopping at
      the first exception. */
  method FlattenAll(rows: seq<Row>, index: Index, fuel: nat) returns (r: Result<seq<Dict<Json>>, ParseError>)
    requires DistinctDicts(rows)
    modifies DictsOf(rows)
    ensures var spec := FlattenRows(old(Snapshots(rows)), index, fuel);
      && (r.Ok? <==> spec.Ok?)
      && (r.Err? ==> r.error == spec.error)
      && (r.Ok? ==>
            && |r.value| == |rows|
            && forall k :: 0 <= k < |rows| ==>
                 Some(r.value[k]) == rows[k].attributes && r.value[k].entries == spec.value[k])
    ensures forall k :: 0 <= k < |rows| && rows[k].attributes.Some? ==>
      Some(rows[k].attributes.value.entries) == EntriesAfter(old(Snapshots(rows)), index, fuel)[k]
  {
    ghost var before := Snapshots(rows);
    assert before == old(Snapshots(rows));
    ghost var entries := AttributesOf(before);
    var result: seq<Dict<Json>> := [];
    for k := 0 to |rows|
      invariant |result| == k && |entries| == |rows|
      invariant forall j :: 0 <= j < k ==> FlattenRow(before[j], index, fuel).Ok?
      invariant forall j :: 0 <= j < k ==>
        Some(result[j]) == rows[j].attributes && entries[j] == Some(FlattenRow(before[j], index, fuel).value)
      invariant forall j :: k <= j < |rows| ==> entries[j] == before[j].attributes
      invariant forall j :: 0 <= j < |rows| && rows[j].attributes.Some? ==>
        Some(rows[j].attributes.value.entries) == entries[j]
    {
      assert Snapshot(rows[k]) == before[k];
      var flat := FlattenRowInPlace(rows[k], index, fuel);
      if flat.Err? {
        entries := entries[k := Stamped(before[k])];
        FlattenRowsFirstError(before, index, fuel, k);
        EntriesAfterStopped(before, index, fuel, k, entries);
        return Err(flat.error);
      }
      assert flat.value.entries == FlattenRow(before[k], index, fuel).value;
      result := result + [flat.value];
      entries := entries[k := Some(flat.value.entries)];
    }
    FlattenRowsAllOk(before, index, fuel);
    EntriesAfterStopped(before, index, fuel, |rows|, entries);
    r := Ok(result);
  }

  /** `parse_api_response`: groups `included` (which must be present), then
      for each row of `data` in order writes the row's id into its
      attributes dictionary, resolves its relationships, merges them into
      that same dictionary and appends the dictionary to the result. */
  method ParseApiResponse(doc: Document, fuel: nat) returns (r: Result<seq<Dict<Json>>, ParseError>)
    requires doc.data.Some? ==> DistinctDicts(doc.data.value)
    modifies DocumentDicts(doc)
    ensures var spec := Denormalize(old(DocumentSnapshot(doc)), fuel);
      && (r.Ok? <==> spec.Ok?)
      && (r.Err? ==> r.error == spec.error)
      && (r.Ok? ==>
            && |r.value| == |spec.value| == |doc.data.value|
            && forall k :: 0 <= k < |r.value| ==>
                 Some(r.value[k]) == doc.data.value[k].attributes && r.value[k].entries == spec.value[k])
    ensures doc.data.Some? ==>
      var rows := doc.data.value;
      var before := old(Snapshots(rows));
      forall k :: 0 <= k < |rows| && rows[k].attributes.Some? ==>
        Some(rows[k].attributes.value.entries) ==
          if doc.included.Some? then EntriesAfter(before, Grouped(doc.included.value), fuel)[k]
          else before[k].attributes
  {
    if doc.included.None? {
      return Err(KeyError("included"));
    }
    var index := GroupIncluded(doc.included.value);
    if doc.data.None? {
      return Err(KeyError("data"));
    }
    r := FlattenAll(doc.data.value, index, fuel);
  }
}

=== FILE: json.dfy ===
/** Decoded JSON values as the Python program sees them, and the mutable
    dictionary objects some operations update in place. */
module Json {

  /** A decoded JSON value. Numbers are integers only (see README). */
  datatype Json =
    | JNull
    | JBool(b: bool)
    | JNum(n: int)
    | JStr(s: string)
    | JArr(items: seq<Json>)
    | JObj(fields: map<string, Json>)

  /** A Python `dict` object with string keys: a reference whose entries
      can be changed in place, by whoever holds it. */
  class Dict<V> {
    var entries: map<string, V>

    constructor (entries: map<string, V>)
      ensures this.entries == entries
    {
      this.entries := entries;
    }
  }
}

=== FILE: jsonapi.dfy ===
/** The JSON:API document shapes the denormaliser consumes, and the index of
    sideloaded (`included`) resources it builds first. */
module JsonApi {
  import opened Wrappers
  import opened Json

  /** A resource identifier object: `{"type": …, "id": …}`. */
  datatype Ref = Ref(resourceType: string, id: string)

  /** The value found under a relationship's `data` member. */
  datatype Linkage =
    | Null                  // JSON null
    | Object(ref: Ref)      // a resource identifier object: to-one
    | EmptyObject           // the empty object {}
    | List(refs: seq<Ref>)  // an array of identifier objects: to-many
    | Scalar(truthy: bool)  // a string, number or boolean; only its truthiness matters

  /** Python truthiness of a linkage value. */
  predicate LinkageTruthy(l: Linkage) {
    match l
    case Null => false
    case Object(_) => true
    case EmptyObject => false
    case List(refs) => refs != []
    case Scalar(t) => t
  }

  /** A relationship object; `data` is `None` when the object has no `data`
      member (a links-only relationship). */
  datatype Relationship = Relationship(data: Option<Linkage>)

  predicate NamesDistinct(rels: seq<(string, Relationship)>) {
    forall i, j :: 0 <= i < j < |rels| ==> rels[i].0 != rels[j].0
  }

  /** A `relationships` member: a dictionary, so its names are distinct, and
      it is iterated in document order. */
  type Relationships = rels: seq<(string, Relationship)> | NamesDistinct(rels)

  /** A resource object as decoded from the wire. `attributes` and
      `relationships` are `None` when the member is absent. */
  datatype Resource = Resource(
    resourceType: string,
    id: string,
    attributes: Option<map<string, Json>>,
    relationships: Option<Relationships>)

  /** The sideloaded resources grouped by type, then by id. */
  type Index = map<string, map<string, Resource>>

  predicate Found(index: Index, ref: Ref) {
    ref.resourceType in index && ref.id in index[ref.resourceType]
  }

  /** The exceptions the denormaliser raises: a failed dictionary lookup
      (`KeyError`), a relationship `data` of unknown shape, and Python's
      recursion limit. */
  datatype ParseError = KeyError(key: string) | UnsupportedShape | RecursionLimit

  predicate Keyed(r: Resource, resourceType: string, id: string) {
    r.resourceType == resourceType && r.id == id
  }

  /** The index with `r` stored under its type and id, replacing any
      resource already stored there. */
  function Insert(index: Index, r: Resource): Index {
    var bucket := if r.resourceType in index then index[r.resourceType] else map[];
    index[r.resourceType := bucket[r.id := r]]
  }

  /** The index built from `included`, element by element in array order. */
  function Grouped(included: seq<Resource>): (index: Index)
    ensures forall t, i :: t in index && i in index[t] ==> Keyed(index[t][i], t, i)
    decreases |included|
  {
    if included == [] then map[]
    else Insert(Grouped(included[..|included| - 1]), included[|included| - 1])
  }

  /** The position of the last element of `included` with the given type and
      id, or -1 when there is none. */
  function LastIndex(included: seq<Resource>, resourceType: string, id: string): (k: int)
    ensures -1 <= k < |included|
    ensures k >= 0 ==> Keyed(included[k], resourceType, id)
    ensures forall j :: k < j < |included| ==> !Keyed(included[j], resourceType, id)
    decreases |included|
  {
    if included == [] then -1
    else if Keyed(included[|included| - 1], resourceType, id) then |included| - 1
    else LastIndex(included[..|included| - 1], resourceType, id)
  }

  /** Building the index: loops over `included`, creating a type's bucket on
      first sight and storing each element under its id. */
  method GroupIncluded(included: seq<Resource>) returns (grouped: Index)
    ensures grouped == Grouped(included)
  {
    grouped := map[];
    for k := 0 to |included|
      invariant grouped == Grouped(included[..k])
    {
      var r := included[k];
      if r.resourceType !in grouped {
        grouped := grouped[r.resourceType := map[]];
      }
      grouped := grouped[r.resourceType := grouped[r.resourceType][r.id := r]];
      assert included[..k + 1][..k] == included[..k];
    }
    assert included[..|included|] == included;
  }

  /** Every element of `included` is reachable through the index under its
      type and id, nothing else is, and when several elements share a type
      and id the one stored is the last of them in array order. */
  lemma {:induction false} GroupedLookup(included: seq<Resource>, resourceType: string, id: string)
    ensures var k := LastIndex(included, resourceType, id);
      && (Found(Grouped(included), Ref(resourceType, id)) <==> k >= 0)
      && (k >= 0 ==> Grouped(included)[resourceType][id] == included[k])
    decreases |included|
  {
    if included != [] {
      GroupedLookup(included[..|included| - 1], resourceType, id);
    }
  }

  /** A type has a bucket in the index exactly when some element of
      `included` has that type. */
  lemma {:induction false} GroupedTypes(included: seq<Resource>, resourceType: string)
    ensures resourceType in Grouped(included)
      <==> exists k :: 0 <= k < |included| && included[k].resourceType == resourceType
    decreases |included|
  {
    if included != [] {
      var prefix := included[..|included| - 1];
      GroupedTypes(prefix, resourceType);
      if exists k :: 0 <= k < |prefix| && prefix[k].resourceType == resourceType {
        var k :| 0 <= k < |prefix| && prefix[k].resourceType == resourceType;
        assert included[k].resourceType == resourceType;
      }
    }
  }
}

=== FILE: resolve.dfy ===
/** Relationship resolution: `parse_single_entity` and `parse_relationships`
    (shopware.py), mutually recursive, as functions returning dictionaries
    and lists.

    The source has no cycle guard; a cyclic relationship graph recurses until
    Python's recursion limit raises. `fuel` is that limit: the number of
    nested entity resolutions still allowed. */
module Resolve {
  import opened Wrappers
  import opened Json
  import opened JsonApi

  /** A flat entity: a dictionary of attribute values, the id and resolved
      relationships. */
  type Entity = map<string, Json>

  /** A relationship that adds a key to the flat entity: its `data` member
      is present and truthy. */
  predicate Contributes(rel: Relationship) {
    rel.data.Some? && LinkageTruthy(rel.data.value)
  }

  /** The names under which resolved relationships appear. */
  function ContributingNames(rels: Relationships): set<string> {
    set k | 0 <= k < |rels| && Contributes(rels[k].1) :: rels[k].0
  }

  /** A resolved entity nested inside another: an object carrying an id. */
  predicate IsEntityValue(j: Json) {
    j.JObj? && "id" in j.fields
  }

  /** The shape a resolved relationship takes: a nested entity for to-one,
      a list of as many entities as references for to-many. */
  predicate ShapeMatches(linkage: Linkage, j: Json) {
    match linkage
    case Object(_) => IsEntityValue(j)
    case List(refs) =>
      j.JArr? && |j.items| == |refs| &&
      forall k :: 0 <= k < |j.items| ==> IsEntityValue(j.items[k])
    case _ => false
  }

  /** The references a relationship points at, in order. */
  function Targets(rel: Relationship): seq<Ref> {
    match rel.data
    case Some(Object(ref)) => [ref]
    case Some(List(refs)) => refs
    case _ => []
  }

  /** `parse_single_entity`: the flat entity for one reference. It starts as
      `{"id": ref.id}`, takes the stored entity's attributes when the
      reference is found, then looks the entity up again without a guard
      and merges in its resolved relationships. */
  function ResolveEntity(ref: Ref, index: Index, fuel: nat): (r: Result<Entity, ParseError>)
    ensures r.Ok? ==> "id" in r.value
    ensures r.Ok? ==> fuel > 0 && Found(index, ref)
    ensures fuel > 0 && !Found(index, ref) ==>
      r == Err(KeyError(if ref.resourceType in index then ref.id else ref.resourceType))
    decreases fuel, 0, 0
  {
    if fuel == 0 then Err(RecursionLimit)
    else
      var parsed := map["id" := JStr(ref.id)];
      var withAttributes :-
        if Found(index, ref) then
          match index[ref.resourceType][ref.id].attributes
          case None => Err(KeyError("attributes"))
          case Some(attributes) => Ok(parsed + attributes)
        else Ok(parsed);
      if ref.resourceType !in index then Err(KeyError(ref.resourceType))
      else if ref.id !in index[ref.resourceType] then Err(KeyError(ref.id))
      else
        match index[ref.resourceType][ref.id].relationships
        case None => Err(KeyError("relationships"))
        case Some(rels) =>
          var resolved :- ResolveRelationships(rels, index, fuel - 1);
          Ok(withAttributes + resolved)
  }

  /** The inner loop of `parse_relationships` over a to-many list: each
      reference resolved in order, kept when the result is non-empty. */
  function ResolveList(refs: seq<Ref>, index: Index, fuel: nat): (r: Result<seq<Json>, ParseError>)
    ensures r.Ok? ==> |r.value| == |refs|
    ensures r.Ok? ==> forall k :: 0 <= k < |r.value| ==> IsEntityValue(r.value[k])
    decreases fuel, 1, |refs|
  {
    if refs == [] then Ok([])
    else
      var parsed :- ResolveEntity(refs[0], index, fuel);
      var rest :- ResolveList(refs[1..], index, fuel);
      Ok((if parsed != map[] then [JObj(parsed)] else []) + rest)
  }

  /** One iteration of `parse_relationships`: `None` when the relationship
      adds no key. */
  function ResolveMember(rel: Relationship, index: Index, fuel: nat): (r: Result<Option<Json>, ParseError>)
    ensures rel.data.None? ==> r == Err(KeyError("data"))
    ensures rel.data == Some(Scalar(true)) ==> r == Err(UnsupportedShape)
    ensures r.Ok? ==> (r.value.Some? <==> Contributes(rel))
    ensures r.Ok? && r.value.Some? ==> ShapeMatches(rel.data.value, r.value.value)
    decreases fuel, 2, 0
  {
    match rel.data
    case None => Err(KeyError("data"))
    case Some(linkage) =>
      if !LinkageTruthy(linkage) then Ok(None)
      else
        match linkage
        case Object(ref) =>
          var parsed :- ResolveEntity(ref, index, fuel);
          Ok(if parsed != map[] then Some(JObj(parsed)) else None)
        case List(refs) =>
          var parsed :- ResolveList(refs, index, fuel);
          Ok(Some(JArr(parsed)))
        case _ => Err(UnsupportedShape)
  }

  /** `parse_relationships`: the dictionary of resolved relationships, built
      member by member in document order; the first exception raised wins. */
  function ResolveRelationships(rels: Relationships, index: Index, fuel: nat): (r: Result<Entity, ParseError>)
    ensures r.Ok? ==> r.value.Keys == ContributingNames(rels)
    ensures r.Ok? ==> forall k :: 0 <= k < |rels| && Contributes(rels[k].1) ==>
      ShapeMatches(rels[k].1.data.value, r.value[rels[k].0])
    decreases fuel, 3, |rels|
  {
    if rels == [] then Ok(map[])
    else
      var member :- ResolveMember(rels[0].1, index, fuel);
      var rest :- ResolveRelationships(rels[1..], index, fuel);
      assert ContributingNames(rels) == (if Contributes(rels[0].1) then {rels[0].0} else {}) + ContributingNames(rels[1..]) by {
        forall name | name in ContributingNames(rels)
          ensures name in (if Contributes(rels[0].1) then {rels[0].0} else {}) + ContributingNames(rels[1..])
        {
          var k :| 0 <= k < |rels| && Contributes(rels[k].1) && rels[k].0 == name;
          if k > 0 { assert rels[1..][k - 1] == rels[k]; }
        }
      }
      assert rels[0].0 !in ContributingNames(rels[1..]);
      Ok((if member.Some? then map[rels[0].0 := member.value] else map[]) + rest)
  }
}

module ResolveProperties {
  import opened Wrappers
  import opened Json
  import opened JsonApi
  import opened Resolve

  /** A to-many list resolves exactly when every reference in it does; the
      result then holds one entity per reference, in the same order,
      duplicates included. Otherwise the exception is that of the first
      reference that fails. */
  lemma {:induction false} ResolveListSpec(refs: seq<Ref>, index: Index, fuel: nat)
    ensures var r := ResolveList(refs, index, fuel);
      && (r.Ok? <==> forall k :: 0 <= k < |refs| ==> ResolveEntity(refs[k], index, fuel).Ok?)
      && (r.Ok? ==> forall k :: 0 <= k < |refs| ==> r.value[k] == JObj(ResolveEntity(refs[k], index, fuel).value))
      && (r.Err? ==>
            exists n :: 0 <= n < |refs| &&
              (forall j :: 0 <= j < n ==> ResolveEntity(refs[j], index, fuel).Ok?) &&
              ResolveEntity(refs[n], index, fuel) == Err(r.error))
    decreases |refs|
  {
    if refs != [] {
      var rest := refs[1..];
      ResolveListSpec(rest, index, fuel);
      assert forall k :: 1 <= k < |refs| ==> refs[k] == rest[k - 1];
      var r := ResolveList(refs, index, fuel);
      if r.Err? && ResolveEntity(refs[0], index, fuel).Ok? {
        var n :| 0 <= n < |rest|
          && (forall j :: 0 <= j < n ==> ResolveEntity(rest[j], index, fuel).Ok?)
          && ResolveEntity(rest[n], index, fuel) == Err(r.error);
        assert ResolveEntity(refs[n + 1], index, fuel) == Err(r.error);
      }
    }
  }

  /** `parse_relationships` succeeds exactly when every member resolves. */
  lemma {:induction false} RelationshipsOkIffMembersOk(rels: Relationships, index: Index, fuel: nat)
    ensures ResolveRelationships(rels, index, fuel).Ok?
      <==> forall k :: 0 <= k < |rels| ==> ResolveMember(rels[k].1, index, fuel).Ok?
    decreases |rels|
  {
    if rels != [] {
      var rest: Relationships := rels[1..];
      RelationshipsOkIffMembersOk(rest, index, fuel);
      assert forall k :: 1 <= k < |rels| ==> rels[k] == rest[k - 1];
    }
  }

  /** When `parse_relationships` succeeds, each contributing member's name
      maps to that member's resolved value. */
  lemma {:induction false} RelationshipsValues(rels: Relationships, index: Index, fuel: nat)
    requires ResolveRelationships(rels, index, fuel).Ok?
    ensures forall k :: 0 <= k < |rels| && Contributes(rels[k].1) ==>
      ResolveMember(rels[k].1, index, fuel) == Ok(Some(ResolveRelationships(rels, index, fuel).value[rels[k].0]))
    decreases |rels|
  {
    if rels != [] {
      var rest: Relationships := rels[1..];
      RelationshipsValues(rest, index, fuel);
      var r := ResolveRelationships(rels, index, fuel).value;
      var restValue := ResolveRelationships(rest, index, fuel).value;
      forall k | 1 <= k < |rels| && Contributes(rels[k].1)
        ensures ResolveMember(rels[k].1, index, fuel) == Ok(Some(r[rels[k].0]))
      {
        assert rels[k] == rest[k - 1];
        assert rels[k].0 in restValue;
      }
    }
  }

  /** When `parse_relationships` fails, the exception is that of the first
      member that fails. */
  lemma {:induction false} RelationshipsFirstError(rels: Relationships, index: Index, fuel: nat)
    requires ResolveRelationships(rels, index, fuel).Err?
    ensures exists n :: 0 <= n < |rels| &&
              (forall j :: 0 <= j < n ==> ResolveMember(rels[j].1, index, fuel).Ok?) &&
              ResolveMember(rels[n].1, index, fuel) == Err(ResolveRelationships(rels, index, fuel).error)
    decreases |rels|
  {
    var e := ResolveRelationships(rels, index, fuel).error;
    if ResolveMember(rels[0].1, index, fuel).Ok? {
      var rest: Relationships := rels[1..];
      RelationshipsFirstError(rest, index, fuel);
      var n :| 0 <= n < |rest| &&
        (forall j :: 0 <= j < n ==> ResolveMember(rest[j].1, index, fuel).Ok?) &&
        ResolveMember(rest[n].1, index, fuel) == Err(e);
      assert rest[n] == rels[n + 1];
      assert forall j :: 1 <= j <= n ==> rels[j] == rest[j - 1];
    }
  }

  /** A resolved entity is `{"id": ref.id}` overwritten by the stored
      entity's attributes, overwritten in turn by its resolved
      relationships: an attribute named `id` replaces the reference id, and
      so does a relationship named `id`. */
  lemma EntityMerge(ref: Ref, index: Index, fuel: nat)
    requires ResolveEntity(ref, index, fuel).Ok?
    ensures var e := index[ref.resourceType][ref.id];
      && e.attributes.Some? && e.relationships.Some?
      && ResolveRelationships(e.relationships.value, index, fuel - 1).Ok?
    ensures var e := index[ref.resourceType][ref.id];
      var attributes := e.attributes.value;
      var resolved := ResolveRelationships(e.relationships.value, index, fuel - 1).value;
      var m := ResolveEntity(ref, index, fuel).value;
      && m.Keys == {"id"} + attributes.Keys + ContributingNames(e.relationships.value)
      && (forall key :: key in m ==>
            m[key] == if key in resolved then resolved[key]
                      else if key in attributes then attributes[key]
                      else JStr(ref.id))
  {
  }

  /** Resolving a stored entity: its attributes must be present, then its
      relationships, then those resolve with one less unit of budget. */
  lemma EntityUnfold(ref: Ref, index: Index, fuel: nat)
    requires fuel > 0 && Found(index, ref)
    ensures var e := index[ref.resourceType][ref.id];
      ResolveEntity(ref, index, fuel) ==
        if e.attributes.None? then Err(KeyError("attributes"))
        else if e.relationships.None? then Err(KeyError("relationships"))
        else match ResolveRelationships(e.relationships.value, index, fuel - 1)
          case Err(err) => Err(err)
          case Ok(resolved) => Ok(map["id" := JStr(ref.id)] + e.attributes.value + resolved)
  {
  }

  /** Resolution with more recursion budget gives the same answer, unless the
      smaller budget ran out. */
  lemma {:induction false} EntityFuelMonotone(ref: Ref, index: Index, fuel: nat, more: nat)
    requires fuel <= more
    requires ResolveEntity(ref, index, fuel) != Err(RecursionLimit)
    ensures ResolveEntity(ref, index, more) == ResolveEntity(ref, index, fuel)
    decreases fuel, 0, 0
  {
    assert fuel > 0;
    if Found(index, ref) {
      EntityUnfold(ref, index, fuel);
      EntityUnfold(ref, index, more);
      var e := index[ref.resourceType][ref.id];
      if e.attributes.Some? && e.relationships.Some? {
        RelationshipsFuelMonotone(e.relationships.value, index, fuel - 1, more - 1);
      }
    }
  }

  lemma {:induction false} ListFuelMonotone(refs: seq<Ref>, index: Index, fuel: nat, more: nat)
    requires fuel <= more
    requires ResolveList(refs, index, fuel) != Err(RecursionLimit)
    ensures ResolveList(refs, index, more) == ResolveList(refs, index, fuel)
    decreases fuel, 1, |refs|
  {
    if refs != [] {
      EntityFuelMonotone(refs[0], index, fuel, more);
      if ResolveEntity(refs[0], index, fuel).Ok? {
        ListFuelMonotone(refs[1..], index, fuel, more);
      }
    }
  }

  lemma {:induction false} MemberFuelMonotone(rel: Relationship, index: Index, fuel: nat, more: nat)
    requires fuel <= more
    requires ResolveMember(rel, index, fuel) != Err(RecursionLimit)
    ensures ResolveMember(rel, index, more) == ResolveMember(rel, index, fuel)
    decreases fuel, 2, 0
  {
    match rel.data {
      case Some(Object(ref)) => EntityFuelMonotone(ref, index, fuel, more);
      case Some(List(refs)) => ListFuelMonotone(refs, index, fuel, more);
      case _ =>
    }
  }

  lemma {:induction false} RelationshipsFuelMonotone(rels: Relationships, index: Index, fuel: nat, more: nat)
    requires fuel <= more
    requires ResolveRelationships(rels, index, fuel) != Err(RecursionLimit)
    ensures ResolveRelationships(rels, index, more) == ResolveRelationships(rels, index, fuel)
    decreases fuel, 3, |rels|
  {
    if rels != [] {
      MemberFuelMonotone(rels[0].1, index, fuel, more);
      if ResolveMember(rels[0].1, index, fuel).Ok? {
        RelationshipsFuelMonotone(rels[1..], index, fuel, more);
      }
    }
  }

  /** `rank` witnesses that the stored entities form an acyclic graph: every
      stored entity has a rank, and every stored entity it points at has a
      smaller one. */
  predicate Ranked(index: Index, rank: map<Ref, nat>) {
    forall t, i :: t in index && i in index[t] ==>
      Ref(t, i) in rank && TargetsBelow(index, rank, index[t][i], rank[Ref(t, i)])
  }

  predicate TargetsBelow(index: Index, rank: map<Ref, nat>, e: Resource, bound: nat) {
    e.relationships.Some? ==>
      var rels := e.relationships.value;
      forall k, j :: 0 <= k < |rels| && 0 <= j < |Targets(rels[k].1)| ==>
        (Found(index, Targets(rels[k].1)[j]) ==>
          Targets(rels[k].1)[j] in rank && rank[Targets(rels[k].1)[j]] < bound)
  }

  /** The recursion budget a reference needs in a ranked index. */
  function Budget(index: Index, rank: map<Ref, nat>, ref: Ref): nat {
    if Found(index, ref) && ref in rank then rank[ref] + 1 else 0
  }

  /** On an acyclic index, a budget above the reference's rank never runs
      into the recursion limit. */
  lemma {:induction false} EntityWithinBudget(ref: Ref, index: Index, rank: map<Ref, nat>, fuel: nat)
    requires Ranked(index, rank)
    requires Budget(index, rank, ref) < fuel
    ensures ResolveEntity(ref, index, fuel) != Err(RecursionLimit)
    decreases fuel, 0, 0
  {
    if Found(index, ref) {
      var e := index[ref.resourceType][ref.id];
      assert TargetsBelow(index, rank, e, rank[ref]);
      if e.relationships.Some? {
        RelationshipsWithinBudget(e.relationships.value, index, rank, fuel - 1);
      }
    }
  }

  lemma {:induction false} ListWithinBudget(refs: seq<Ref>, index: Index, rank: map<Ref, nat>, fuel: nat)
    requires Ranked(index, rank)
    requires forall j :: 0 <= j < |refs| ==> Budget(index, rank, refs[j]) < fuel
    ensures ResolveList(refs, index, fuel) != Err(RecursionLimit)
    decreases fuel, 1, |refs|
  {
    if refs != [] {
      EntityWithinBudget(refs[0], index, rank, fuel);
      ListWithinBudget(refs[1..], index, rank, fuel);
    }
  }

  lemma {:induction false} MemberWithinBudget(rel: Relationship, index: Index, rank: map<Ref, nat>, fuel: nat)
    requires Ranked(index, rank)
    requires forall j :: 0 <= j < |Targets(rel)| ==> Budget(index, rank, Targets(rel)[j]) < fuel
    ensures ResolveMember(rel, index, fuel) != Err(RecursionLimit)
    decreases fuel, 2, 0
  {
    match rel.data {
      case Some(Object(ref)) =>
        assert Targets(rel)[0] == ref;
        EntityWithinBudget(ref, index, rank, fuel);
      case Some(List(refs)) =>
        assert Targets(rel) == refs;
        ListWithinBudget(refs, index, rank, fuel);
      case _ =>
    }
  }

  lemma {:induction false} RelationshipsWithinBudget(rels: Relationships, index: Index, rank: map<Ref, nat>, fuel: nat)
    requires Ranked(index, rank)
    requires forall k, j :: 0 <= k < |rels| && 0 <= j < |Targets(rels[k].1)| ==>
      Budget(index, rank, Targets(rels[k].1)[j]) < fuel
    ensures ResolveRelationships(rels, index, fuel) != Err(RecursionLimit)
    decreases fuel, 3, |rels|
  {
    if rels != [] {
      MemberWithinBudget(rels[0].1, index, rank, fuel);
      var rest: Relationships := rels[1..];
      assert forall k :: 0 <= k < |rest| ==> rest[k] == rels[k + 1];
      RelationshipsWithinBudget(rest, index, rank, fuel);
    }
  }

  /** A set of stored entities each of which points at a member of the set:
      a cycle of the relationship graph (a self-reference included). */
  predicate CycleClosed(index: Index, cycle: set<Ref>) {
    forall ref :: ref in cycle ==>
      Found(index, ref) && LinksInto(index[ref.resourceType][ref.id], cycle)
  }

  predicate LinksInto(e: Resource, cycle: set<Ref>) {
    e.relationships.Some? &&
    var rels := e.relationships.value;
    exists k, j :: 0 <= k < |rels| && 0 <= j < |Targets(rels[k].1)| && Targets(rels[k].1)[j] in cycle
  }

  /** A member resolves only when every reference it points at does. */
  lemma MemberTargetsResolve(rel: Relationship, index: Index, fuel: nat)
    requires ResolveMember(rel, index, fuel).Ok?
    ensures forall j :: 0 <= j < |Targets(rel)| ==> ResolveEntity(Targets(rel)[j], index, fuel).Ok?
  {
    if rel.data.Some? && rel.data.value.List? {
      ResolveListSpec(rel.data.value.refs, index, fuel);
    }
  }

  /** The value a contributing relationship adds: for a to-one reference,
      the referenced entity's resolution; for a to-many list, one resolved
      entity per reference, in list order, duplicates included. */
  lemma MemberValue(rel: Relationship, index: Index, fuel: nat)
    requires ResolveMember(rel, index, fuel).Ok? && Contributes(rel)
    ensures var v := ResolveMember(rel, index, fuel).value;
      && v.Some?
      && (rel.data.value.Object? ==>
            var ref := rel.data.value.ref;
            ResolveEntity(ref, index, fuel).Ok? && v.value == JObj(ResolveEntity(ref, index, fuel).value))
      && (rel.data.value.List? ==>
            var refs := rel.data.value.refs;
            && v.value.JArr? && |v.value.items| == |refs|
            && forall k :: 0 <= k < |refs| ==>
                 ResolveEntity(refs[k], index, fuel).Ok? &&
                 v.value.items[k] == JObj(ResolveEntity(refs[k], index, fuel).value))
  {
    if rel.data.value.List? {
      ResolveListSpec(rel.data.value.refs, index, fuel);
    }
  }

  /** When a member succeeds: a falsy `data` adds nothing and never fails;
      a truthy to-one or to-many member resolves exactly when every
      reference it points at does, and otherwise raises the exception of
      the first reference that fails; any other truthy shape raises. */
  lemma MemberSucceeds(rel: Relationship, index: Index, fuel: nat)
    requires rel.data.Some?
    ensures !LinkageTruthy(rel.data.value) ==> ResolveMember(rel, index, fuel) == Ok(None)
    ensures Contributes(rel) && !rel.data.value.Object? && !rel.data.value.List? ==>
      ResolveMember(rel, index, fuel) == Err(UnsupportedShape)
    ensures Contributes(rel) && (rel.data.value.Object? || rel.data.value.List?) ==>
      var r := ResolveMember(rel, index, fuel);
      && (r.Ok? <==> forall j :: 0 <= j < |Targets(rel)| ==> ResolveEntity(Targets(rel)[j], index, fuel).Ok?)
      && (r.Err? ==>
            exists n :: 0 <= n < |Targets(rel)| &&
              (forall j :: 0 <= j < n ==> ResolveEntity(Targets(rel)[j], index, fuel).Ok?) &&
              ResolveEntity(Targets(rel)[n], index, fuel) == Err(r.error))
  {
    if Contributes(rel) {
      match rel.data.value
      case List(refs) =>
        ResolveListSpec(refs, index, fuel);
        assert Targets(rel) == refs;
      case Object(ref) =>
        assert Targets(rel) == [ref];
        assert Targets(rel)[0] == ref;
      case _ =>
    }
  }

  /** `parse_relationships` fails as soon as one reference anywhere in its
      members fails to resolve. */
  lemma RelationshipsFailWithTarget(rels: Relationships, index: Index, fuel: nat, k: nat, j: nat)
    requires k < |rels| && j < |Targets(rels[k].1)|
    requires ResolveEntity(Targets(rels[k].1)[j], index, fuel).Err?
    ensures ResolveRelationships(rels, index, fuel).Err?
  {
    if ResolveMember(rels[k].1, index, fuel).Ok? {
      MemberTargetsResolve(rels[k].1, index, fuel);
    }
    RelationshipsOkIffMembersOk(rels, index, fuel);
  }

  /** There is no cycle guard: an entity on a cycle never resolves, whatever
      the recursion budget. */
  lemma {:induction false} CycleNeverResolves(ref: Ref, index: Index, cycle: set<Ref>, fuel: nat)
    requires CycleClosed(index, cycle)
    requires ref in cycle
    ensures ResolveEntity(ref, index, fuel).Err?
    decreases fuel
  {
    if fuel > 0 {
      var e := index[ref.resourceType][ref.id];
      assert LinksInto(e, cycle);
      var rels := e.relationships.value;
      var k, j :| 0 <= k < |rels| && 0 <= j < |Targets(rels[k].1)| && Targets(rels[k].1)[j] in cycle;
      CycleNeverResolves(Targets(rels[k].1)[j], index, cycle, fuel - 1);
      RelationshipsFailWithTarget(rels, index, fuel - 1, k, j);
      EntityUnfold(ref, index, fuel);
    }
  }
}

=== FILE: wrappers.dfy ===
/** Option and Result, the failure-compatible wrappers used for the
    source's `None` values and raised exceptions. */
module Wrappers {

  datatype Option<+T> = None | Some(value: T)

  /** The outcome of an operation that may raise: `Ok` carries the
      value returned, `Err` the exception raised. */
  datatype Result<+T, +E> = Ok(value: T) | Err(error: E) {

    predicate IsFailure() {
      Err?
    }

    function PropagateFailure<U>(): Result<U, E>
      requires Err?
    {
      Err(error)
    }

    function Extract(): T
      requires Ok?
    {
      value
    }
  }
}
